=== FILE: README.md ===
# soft-time clock face, modelled in Dafny

soft-time draws a decorative clock as a chain of five nested circles. Each
circle is pushed off its parent's centre by a small offset. The current
hour, minute, second and millisecond each turn one link of the chain. The
frame paints the circles as outlines, as solid fills, or as blurred radial
gradients. This project models that core, as written in the web app's
renderer (`web/src/render.js`) and in the older documentation build
(`web/docs/render.js`):

- `circles.dfy` (`CircleChain`): the chain generator `createCircles`.
  - It is a loop over an abstract source of uniform draws.
  - It is proved equal to a recursive specification `Chain`.
  - Proved properties: the chain has the requested length, starts with the hub `{0, r}`, every offset and radius stays within its fraction band, and radii are positive and strictly shrinking.
- `clock.dfy` (`ClockAngles`): the angle of each circle for a clock reading.
  - Angles are fractions of a full turn rather than radians.
  - Proved properties: every angle is in [0, 1), the hour hand has a period of twelve hours, and two valid readings give the same angles exactly when they agree on the hour modulo 12 and on the minute, second and millisecond.
- `walk.dfy` (`ChainWalk`): the walk that places each circle relative to its parent, starting from the canvas centre.
  - It is the `cx`/`cy` accumulation loop, proved equal to a prefix-sum specification.
  - cos and sin are parameters. The structural facts hold for any functions.
  - With a true unit circle, each circle stays inside its parent.
- `theme.dfy` (`Theme`): `isDarkTheme`, with JavaScript's `toLowerCase` and `trim`, and the outline stroke colour that depends on it.
- `paint.dfy` (`Paint`): the three scheme branches of `update`.
  - They are loops that emit a list of abstract drawing commands.
  - They are proved equal to a per-scheme specification `Plan`.
  - Each gradient has the circle's own colour at stop 0, at the inner circle, and the previous colour (the background's for the first circle) at stop 1, at the rim.
  - `FilterAfter` is the canvas-filter semantics. It shows that only gradient fills are blurred and that every pass ends with the filter off.
- `render_src.dfy` (`SrcRender`): `render` and its per-tick `update` in the web app. This covers the clearing fill, the walk and the scheme pass.
- `render_docs.dfy` (`DocsRender`): the documentation build's `render` and `update`.
  - Its frame is proved equal to the web app's frame for the gradient scheme on a white background.

Inputs that come from outside the core are parameters:
- the random source is `random: nat -> real`, where the k-th draw feeds the k-th `random()` call;
- the clock reading;
- the cosine and sine, taking turn fractions.

## Model

| member | source | states |
|---|---|---|
| CircleChain.Uniform | web/src/render.js:11 | `randomUniform(min, max)` scales a draw in [0, 1] into [min, max] |
| CircleChain.NextOffset | web/src/render.js:11-16 | an offset drawn from a unit draw lies between 10% and 20% of the parent radius |
| CircleChain.NextRadius | web/src/render.js:11-18 | a radius drawn from a unit draw lies between 80% and 90% of what the parent leaves (`r - d`) |
| CircleChain.ChainFrom | web/src/render.js:12-20 | the chain from an intermediate loop state has one circle per remaining iteration and starts with the current `{d, r}` |
| CircleChain.Chain | web/src/render.js:12-20 | the generated chain has `count` circles and, when non-empty, starts with the hub `{0, r}` |
| CircleChain.ChainFromDraws | web/src/render.js:14-18 | each iteration takes two fresh draws, the offset's first: circle i of the circles pushed from draw k takes its offset from draw k + 2(i - 1) scaled by the previous radius, and its radius from the draw after that, scaled by what the offset leaves |
| CircleChain.ChainDraws | web/src/render.js:12-20 | circle i of a chain takes its offset from draw 2(i - 1) and its radius from draw 2(i - 1) + 1, both relative to circle i - 1 |
| CircleChain.StepFollows | web/src/render.js:16-18 | one iteration from a positive radius yields a circle inside its offset/radius bands, with positive radius, fitting inside its parent (`d + r < r_parent`) |
| CircleChain.ChainWellShaped | web/src/render.js:12-20 | for a positive base radius and unit draws, the chain starts with `{0, r}` and each circle follows its predecessor |
| CircleChain.RadiiShrink | web/src/render.js:16-18 | in a well-shaped chain every radius is positive, at most the base radius, and strictly smaller than every earlier one |
| CircleChain.CreateCircles | web/src/render.js:9-21 | the loop returns exactly `Chain(r, count, random)`: `count` circles, the first `{0, r}`, well-shaped for positive `r` and unit draws |
| ClockAngles.MillisecondsTurn | web/src/render.js:100 | milliseconds below 1000 give a turn in [0, 1); the turn times 1000 is the millisecond count |
| ClockAngles.SecondsTurn | web/src/render.js:101 | the second hand moves with the milliseconds: turn · 60 = seconds + millisecond turn, in [0, 1) for a valid reading |
| ClockAngles.MinutesTurn | web/src/render.js:102 | the minute hand moves in whole minutes: turn · 60 = minutes, in [0, 1) |
| ClockAngles.HoursTurn | web/src/render.js:99-103 | the hour hand uses the hour modulo 12: turn · 12 = hours mod 12, always in [0, 1) |
| ClockAngles.Angles | web/src/render.js:99-104 | five angles, the hub's 0 first, all in [0, 1) for a valid reading |
| ClockAngles.TwelveHourPeriodic | web/src/render.js:99 | hours h and h + 12 give the same angles |
| ClockAngles.AnglesDetermineReading | web/src/render.js:99-104 | valid readings give equal angles exactly when hours mod 12, minutes, seconds and milliseconds agree |
| ClockAngles.MidnightPointsUp | web/src/render.js:99-104 | at 0:00:00.000 (and at noon) every angle is 0 |
| ChainWalk.Positions | web/src/render.js:118-123 | one position per circle |
| ChainWalk.Walk | web/src/render.js:115-123 | the accumulation loop yields exactly the prefix-sum positions `Positions` |
| ChainWalk.HubAtCenter | web/src/render.js:115-122 | circle 0 has offset 0, so it sits at the canvas centre |
| ChainWalk.RelativeToPrevious | web/src/render.js:120-122 | position i is position i - 1 moved by `d_i · (cos, sin)(start + angle_i)` |
| ChainWalk.TranslationInvariant | web/src/render.js:115-123 | moving the start point by (dx, dy) moves every position by (dx, dy) |
| ChainWalk.AllUpOneRay | web/src/render.js:115-123 | with all angles 0, every circle lies on the start ray at the sum of the offsets so far |
| ChainWalk.Nested | web/src/render.js:16-18 | for a well-shaped chain and a true cosine/sine, circle i lies strictly inside circle i - 1 (`dist² < (r_{i-1} - r_i)²`) |
| Theme.Lower | web/src/render.js:5 | lower-casing keeps the length and leaves no A–Z: each of A–Z becomes its lower-case letter (code + 32), KELVIN SIGN becomes 'k', every other character is kept |
| Theme.TrimStart | web/src/render.js:5 | the result is a suffix, only white space was removed, and it does not start with white space |
| Theme.TrimEnd | web/src/render.js:5 | the result is a prefix, only white space was removed, and it does not end with white space |
| Theme.Trim | web/src/render.js:5 | trimming never lengthens; it gives the empty string exactly when the input is all white space, and otherwise a string that neither starts nor ends with white space |
| Theme.IsDarkTheme | web/src/render.js:4-7 | the background, lower-cased and trimmed, is "black", "#000" or "#000000" |
| Theme.DarkNeedsText | web/src/render.js:4-7 | a dark background has at least three characters |
| Theme.BlankIsLight | web/src/render.js:4-7 | a background of white space only (the empty string included) is not dark |
| Theme.StrokeColor | web/src/render.js:38-41 | the stroke is "#fff" exactly when the background is dark and "#000" exactly when it is not |
| Theme.PaddingIgnored | web/src/render.js:4-7 | white space around the background never changes the verdict |
| Theme.CaseIgnored | web/src/render.js:4-7 | two backgrounds that differ only in the case of ASCII letters are both dark or both light |
| Theme.ShoutedBlackIsDark | web/src/render.js:4-7 | "BLACK" and "Black" are dark |
| Theme.BlackIsDark | web/src/render.js:6 | "black", "#000" and "#000000" are dark |
| Theme.DefaultIsLight | web/src/render.js:4-7 | the default background "white" is not dark |
| Theme.GreyIsLight | web/src/render.js:4-7 | "#111" is not dark |
| Paint.SchemeOf | web/src/render.js:125-149 | "None" selects outlines, "Solid" solid fills, any other name the gradients |
| Paint.GradientOf | web/src/render.js:153-168 | the gradient of circle i is a gradient fill over circle i's centre and radius, with `colors[i]` at stop 0 |
| Paint.Gradients | web/src/render.js:153-169 | one gradient fill per circle |
| Paint.Plan | web/src/render.js:125-171 | a plan has one command per circle plus one filter setting first (two settings for gradients); the first setting is the blur for gradients and "none" otherwise |
| Paint.PaintGradients | web/src/render.js:149-171 | the loop threading `prevColor` from the background emits exactly the gradient fills `Gradients` |
| Paint.PaintCircles | web/src/render.js:125-171 | the three scheme branches emit exactly `Plan` for the scheme |
| Paint.PlanShape | web/src/render.js:125-171 | a plan is a filter setting (blur only for gradients), one drawing command per circle (gradients exactly in the gradient scheme), and for gradients a final filter reset |
| Paint.PlanFilters | web/src/render.js:125-171 | whatever filter came before, gradient fills are drawn under the blur, every other drawing command unblurred, and every plan leaves the filter off |
| Paint.OutlineOnlyStrokes | web/src/render.js:125-136 | the outline scheme turns the filter off and only strokes each circle, in the stroke colour and in order |
| Paint.SolidFillsInOrder | web/src/render.js:137-148 | the solid scheme turns the filter off and fills circle i with `colors[i]`, in order |
| Paint.GradientThreading | web/src/render.js:149-171 | blur first, reset last; gradient i fills circle i with stop0 `colors[i]`, stop1 the background for i = 0 and the previous gradient's stop0 otherwise; the inner anchor is the next circle's centre and radius (own centre, radius 0, for the last) |
| Paint.FilterAfter | web/src/render.js:125-171 | the filter after a run of commands is the starting filter or one that the run set, and the starting filter when the run sets none |
| Paint.LeadingFilter | web/src/render.js:125-171 | after a filter setting followed only by drawing commands, the filter in effect is the one that was set |
| Paint.FilterAfterConcat | web/src/render.js:125-171 | the filter after two command runs is the second run's filter started from the first's |
| SrcRender.BaseRadius | web/src/render.js:71 | the hub radius is 0.4 · size, positive and below half the canvas for a positive size |
| SrcRender.Center | web/src/render.js:115-116 | the walk starts at the canvas centre: equal coordinates summing to the canvas side |
| SrcRender.Render | web/src/render.js:71-72 | the session keeps its styling and holds the five-circle chain grown from the base radius, well-shaped for a positive size and unit draws |
| SrcRender.DefaultCanvasChain | web/src/render.js:24-28 | on a 400-pixel canvas the hub has radius 160 and the next circle is 16 to 32 pixels off centre, with radius 80–90% of `160 - d` |
| SrcRender.Frame | web/src/render.js:94-171 | a frame has one command per circle plus the clearing fill and the plan's filter settings; it starts with the background fill of the whole canvas, then the scheme's first filter setting |
| SrcRender.Update | web/src/render.js:94-171 | one tick emits exactly `Frame`: the clearing fill, then the scheme's plan at the walked positions |
| SrcRender.FrameFilters | web/src/render.js:106-171 | every frame leaves the filter off; in a frame started with the filter off only gradient fills are blurred, the clearing fill included |
| SrcRender.GradientFrame | web/src/render.js:106-171 | a gradient-scheme frame is: clear, blur on, the threaded gradients, blur off |
| SrcRender.OutlineFrame | web/src/render.js:106-136 | an outline frame is the clearing fill, the filter switched off, then one stroke per circle at its walked position and radius, in order, with line width 2, in the contrast colour `StrokeColor(background)` |
| SrcRender.ClearFirst | web/src/render.js:106-108 | a leading clearing fill does not change which filter later commands are drawn under |
| DocsRender.AsConfig | web/docs/render.js:36-39 | a docs session corresponds to the web app's styling with a white background and the gradient scheme |
| DocsRender.Render | web/docs/render.js:4-22 | the docs chain is the same five-circle chain grown from `(size/2)·0.8`: hub `{0, 0.4·size}`, well-shaped for a positive size |
| DocsRender.Update | web/docs/render.js:24-70 | a docs tick emits the web app's frame for "white" and gradients: white clearing fill, blur on, only gradient fills, the first fading into white, blur off last |
| DocsRender.HourReducedFirst | web/docs/render.js:29-34 | taking the hour modulo 12 first gives the same angles |

## Left out

- The random generator (`d3.randomLcg` seeded with `seed · 1000`, with `d3.randomUniform.source`) is library code and is not part of this model. The chain is stated for any source of draws, and its bounds for any source of draws in [0, 1].
- The time lookup (`Intl.DateTimeFormat`, `Date`, the time-zone name) is a call into the platform. The clock reading is an input. `ValidReading` lets hours reach 24, because a 24-hour formatter can print midnight as 24.
- The DOM container, the text overlay, `toLocaleTimeString` and the `showTime` switch are presentation only.
- `d3.interval` ticking and `cleanup` are timer plumbing.
- Pixel output is not modelled: the canvas calls become abstract commands.
  - The angles in radians (the factor 2π), and the values of cos and sin, are also not modelled. Angles are turn fractions, and cos and sin are parameters.
  - `beginPath`/`arc` pairs are not modelled. Each drawing command stands for one such pair plus its fill or stroke.
- JavaScript numbers are IEEE doubles. The model computes over exact reals, so rounding is not captured.
- A palette shorter than the chain gives `undefined` colours in the source. The Solid and Gradient schemes require `|colors| >= |circles|` instead.
- Colours and the blur radius are assumed to be values the canvas accepts; the model treats them as opaque strings and numbers. The source behaves differently otherwise:
  - In the gradient branch, `addColorStop` (web/src/render.js:161, web/docs/render.js:59) throws for `undefined` or for a colour the canvas cannot parse. This includes the default empty palette.
  - After such a throw, `update` stops with the blur filter still set (web/src/render.js:151, web/docs/render.js:39). The reset at web/src/render.js:170 and web/docs/render.js:69 never runs, so the next frame's clearing fill is blurred.
  - SrcRender.FrameFilters ("every frame leaves the filter off") therefore holds only for accepted colours.
  - In the Solid branch, an invalid `fillStyle` is ignored, and the previous fill style paints the circle. The model fills with the given colour.
  - A negative blur makes the `blur(…px)` filter invalid, so the canvas keeps its previous filter. The model still emits `Blur(blur)`.
- The default option values of `render` (size 400, seed 100, empty palette, blur 2 or 5, background "white", scheme "Gradient") are the caller's business. Only the 400-pixel scenario is stated, in `SrcRender.DefaultCanvasChain`.
- SrcRender.FrameFilters: radii are assumed non-negative, that is a non-negative `size` and draws in [0, 1]. The model emits a full frame for any size. The source does not:
  - With a negative size the hub radius `0.4 · size` is negative, and so is every later radius.
  - `ctx.arc` then throws an IndexSizeError (web/src/render.js:134, 146 and 167; web/docs/render.js:65), and so does `createRadialGradient` (web/src/render.js:160; web/docs/render.js:58).
  - In the gradient scheme the throw comes after the blur was switched on (web/src/render.js:151; web/docs/render.js:39), so the filter is left blurred. "Every frame leaves the filter off" therefore holds only for non-negative radii.
- The web app's `render` paints its first frame synchronously (web/src/render.js:188). A throw in `update` therefore makes `render` itself throw: with a palette the canvas rejects, the default empty one included, or with negative radii. The model's `Render` and `Update` are separate steps and do not capture this.
- Theme.Lower: maps only A–Z and KELVIN SIGN (U+212A, whose lower case is 'k'). These are the only characters whose lower case is one of the characters of "black", "#000" or "#000000". Other characters are kept as they are. This does not change `isDarkTheme` but differs from `toLowerCase` on other text.
- `web/src/main.js` (the host page, palette curation, `Math.random` seeds) is not part of this model.

=== FILE: circles.dfy ===
/**
 The circle-chain generator of the clock face (`createCircles`).

 A chain is built once per clock: circle 0 is concentric with the canvas
 centre and has the base radius; every later circle is pushed a random
 10–20% of its predecessor's radius away from the predecessor's centre and
 gets a random 80–90% of the room that is left, so it sits inside it.
 */
module CircleChain {

  /** One circle of the chain: `d` is the distance of its centre from the
      previous circle's centre, `r` its radius. */
  datatype Circle = Circle(d: real, r: real)

  /** A random source yields values in [0, 1]; `random(k)` is the k-th value
      it yields. */
  ghost predicate UnitSource(random: nat -> real) {
    forall k: nat :: 0.0 <= random(k) <= 1.0
  }

  /** A value drawn uniformly from [lo, hi] by scaling the unit draw `u`. */
  function Uniform(lo: real, hi: real, u: real): (x: real)
    requires lo <= hi
    ensures 0.0 <= u <= 1.0 ==> lo <= x <= hi
  {
    ProductBounds(u, 0.0, 1.0, hi - lo, u * (hi - lo));
    u * (hi - lo) + lo
  }

  /** The offset of the next circle: a draw from [0.1, 0.2] times the current
      radius. */
  function NextOffset(r: real, u: real): (d: real)
    ensures 0.0 <= r && 0.0 <= u <= 1.0 ==> 0.1 * r <= d <= 0.2 * r
  {
    ProductBounds(Uniform(0.1, 0.2, u), 0.1, 0.2, r, Uniform(0.1, 0.2, u) * r);
    Uniform(0.1, 0.2, u) * r
  }

  /** The radius of the next circle: a draw from [0.8, 0.9] times what the
      offset `d` leaves of the current radius `r`. */
  function NextRadius(r: real, d: real, v: real): (r': real)
    ensures d <= r && 0.0 <= v <= 1.0 ==> 0.8 * (r - d) <= r' <= 0.9 * (r - d)
  {
    ProductBounds(Uniform(0.8, 0.9, v), 0.8, 0.9, r - d, Uniform(0.8, 0.9, v) * (r - d));
    Uniform(0.8, 0.9, v) * (r - d)
  }

  /** Scaling by a non-negative `x` keeps order: when `a` lies between `lo`
      and `hi`, the product `p = a * x` lies between `lo * x` and `hi * x`. */
  lemma ProductBounds(a: real, lo: real, hi: real, x: real, p: real)
    ensures p == a * x && lo <= a <= hi && 0.0 <= x ==> lo * x <= p <= hi * x
  {
    if p == a * x && lo <= a <= hi && 0.0 <= x {
      MulNonNeg(a - lo, x);
      MulNonNeg(hi - a, x);
      assert (a - lo) * x == a * x - lo * x;
      assert (hi - a) * x == hi * x - a * x;
    }
  }

  lemma MulNonNeg(a: real, b: real)
    requires 0.0 <= a && 0.0 <= b
    ensures 0.0 <= a * b
  {
  }

  /** The circles still to be pushed by the generator loop when it is entered
      with offset `d`, radius `r`, `count` iterations to go, and the random
      source positioned at draw `k`. */
  function ChainFrom(d: real, r: real, count: nat, random: nat -> real, k: nat): (cs: seq<Circle>)
    ensures |cs| == count
    ensures count > 0 ==> cs[0] == Circle(d, r)
    decreases count
  {
    if count == 0 then []
    else
      var d' := NextOffset(r, random(k));
      [Circle(d, r)] + ChainFrom(d', NextRadius(r, d', random(k + 1)), count - 1, random, k + 2)
  }

  /** The chain of `count` circles grown from base radius `r`. */
  function Chain(r: real, count: nat, random: nat -> real): (cs: seq<Circle>)
    ensures |cs| == count
    ensures count > 0 ==> cs[0] == Circle(0.0, r)
  {
    ChainFrom(0.0, r, count, random, 0)
  }

  /** Circle `c` may follow circle `p`: its centre is 10–20% of `p`'s radius
      away from `p`'s centre, its radius is 80–90% of what remains of `p`'s
      radius after that offset, it has positive size and lies strictly
      inside `p`. */
  predicate Follows(p: Circle, c: Circle)
  {
    && 0.1 * p.r <= c.d <= 0.2 * p.r
    && 0.8 * (p.r - c.d) <= c.r <= 0.9 * (p.r - c.d)
    && 0.0 < c.r
    && c.d + c.r < p.r
  }

  /** A chain grown from base radius `r`: the hub is concentric and has
      radius `r`, every other circle follows its predecessor. */
  predicate WellShaped(cs: seq<Circle>, r: real)
  {
    && (|cs| > 0 ==> cs[0] == Circle(0.0, r))
    && forall i :: 0 < i < |cs| ==> Follows(cs[i - 1], cs[i])
  }

  /** One iteration of the generator, started from a circle of positive
      radius with unit draws, produces a circle that follows it. */
  lemma StepFollows(p: Circle, u: real, v: real)
    requires 0.0 < p.r
    requires 0.0 <= u <= 1.0 && 0.0 <= v <= 1.0
    ensures Follows(p, Circle(NextOffset(p.r, u), NextRadius(p.r, NextOffset(p.r, u), v)))
  {
  }

  /** Every circle the generator loop pushes after the first follows its
      predecessor, provided the radius it starts from is positive. */
  lemma {:induction false} ChainFromFollows(d: real, r: real, count: nat, random: nat -> real, k: nat)
    requires 0.0 < r
    requires UnitSource(random)
    ensures forall i :: 0 < i < count ==>
              Follows(ChainFrom(d, r, count, random, k)[i - 1], ChainFrom(d, r, count, random, k)[i])
    decreases count
  {
    if count > 1 {
      var d' := NextOffset(r, random(k));
      var r' := NextRadius(r, d', random(k + 1));
      var cs := ChainFrom(d, r, count, random, k);
      var tail := ChainFrom(d', r', count - 1, random, k + 2);
      assert cs == [Circle(d, r)] + tail;
      StepFollows(Circle(d, r), random(k), random(k + 1));
      assert 0.0 < r';
      ChainFromFollows(d', r', count - 1, random, k + 2);
      forall i | 0 < i < count ensures Follows(cs[i - 1], cs[i]) {
        if i > 1 {
          assert cs[i - 1] == tail[i - 2] && cs[i] == tail[i - 1];
        }
      }
    }
  }

  /** Each iteration consumes two fresh draws, the offset's first: circle i
      of the circles pushed from draw `k` on takes its offset from draw
      `k + 2(i - 1)` and its radius from the draw after it, both scaled by
      the previous circle's radius. */
  lemma {:induction false} ChainFromDraws(d: real, r: real, count: nat, random: nat -> real, k: nat, i: nat)
    requires 0 < i < count
    ensures var cs := ChainFrom(d, r, count, random, k);
            && cs[i].d == NextOffset(cs[i - 1].r, random(k + 2 * (i - 1)))
            && cs[i].r == NextRadius(cs[i - 1].r, cs[i].d, random(k + 2 * (i - 1) + 1))
    decreases count
  {
    var d' := NextOffset(r, random(k));
    var r' := NextRadius(r, d', random(k + 1));
    var cs := ChainFrom(d, r, count, random, k);
    var tail := ChainFrom(d', r', count - 1, random, k + 2);
    assert cs == [Circle(d, r)] + tail;
    if i == 1 {
      assert cs[0] == Circle(d, r) && cs[1] == tail[0] == Circle(d', r');
    } else {
      ChainFromDraws(d', r', count - 1, random, k + 2, i - 1);
      assert cs[i - 1] == tail[i - 2] && cs[i] == tail[i - 1];
      assert k + 2 + 2 * (i - 2) == k + 2 * (i - 1);
    }
  }

  /** Circle i of a chain takes its offset from draw `2(i - 1)` and its
      radius from draw `2(i - 1) + 1`. */
  lemma ChainDraws(r: real, count: nat, random: nat -> real, i: nat)
    requires 0 < i < count
    ensures var cs := Chain(r, count, random);
            && cs[i].d == NextOffset(cs[i - 1].r, random(2 * (i - 1)))
            && cs[i].r == NextRadius(cs[i - 1].r, cs[i].d, random(2 * (i - 1) + 1))
  {
    ChainFromDraws(0.0, r, count, random, 0, i);
  }

  /** A chain grown from a positive base radius with a source of unit draws
      is well shaped. */
  lemma ChainWellShaped(r: real, count: nat, random: nat -> real)
    requires 0.0 < r
    requires UnitSource(random)
    ensures WellShaped(Chain(r, count, random), r)
  {
    ChainFromFollows(0.0, r, count, random, 0);
  }

  /** In a well-shaped chain with a positive base radius every radius is
      positive, at most the base radius, and strictly smaller than the radius
      of every earlier circle. */
  lemma {:induction false} RadiiShrink(cs: seq<Circle>, r: real)
    requires 0.0 < r
    requires WellShaped(cs, r)
    ensures forall i :: 0 <= i < |cs| ==> 0.0 < cs[i].r <= r
    ensures forall i, j :: 0 <= i < j < |cs| ==> cs[j].r < cs[i].r
  {
    if |cs| > 1 {
      var front := cs[..|cs| - 1];
      assert WellShaped(front, r) by {
        forall i | 0 < i < |front| ensures Follows(front[i - 1], front[i]) {
          assert front[i - 1] == cs[i - 1] && front[i] == cs[i];
        }
      }
      RadiiShrink(front, r);
      var n := |cs| - 1;
      assert Follows(cs[n - 1], cs[n]);
      assert cs[n].r < cs[n - 1].r by {
        assert front[n - 1] == cs[n - 1];
      }
      forall i, j | 0 <= i < j < |cs| ensures cs[j].r < cs[i].r {
        if j < n {
          assert front[i] == cs[i] && front[j] == cs[j];
        } else if i < n - 1 {
          assert front[i] == cs[i] && front[n - 1] == cs[n - 1];
        }
      }
    }
  }

  /** The generator loop of `createCircles`: pushes the current circle, then
      draws the next offset from the current radius and the next radius from
      what the offset leaves. */
  method CreateCircles(r: real, count: nat, random: nat -> real) returns (circles: seq<Circle>)
    ensures circles == Chain(r, count, random)
    ensures |circles| == count
    ensures count > 0 ==> circles[0] == Circle(0.0, r)
    ensures 0.0 < r && UnitSource(random) ==> WellShaped(circles, r)
  {
    circles := [];
    var dist, radius := 0.0, r;
    var i := 0;
    while i < count
      invariant 0 <= i <= count
      invariant circles + ChainFrom(dist, radius, count - i, random, 2 * i) == Chain(r, count, random)
    {
      ghost var rest := ChainFrom(dist, radius, count - i, random, 2 * i);
      circles := circles + [Circle(dist, radius)];
      dist := NextOffset(radius, random(2 * i));
      radius := NextRadius(radius, dist, random(2 * i + 1));
      assert rest == [rest[0]] + ChainFrom(dist, radius, count - i - 1, random, 2 * i + 2);
      i := i + 1;
    }
    if 0.0 < r && UnitSource(random) {
      ChainWellShaped(r, count, random);
    }
  }
}

=== FILE: clock.dfy ===
/**
 The time-to-angle mapping of the clock face.

 A clock reading is turned into one angle per circle of the chain. Angles are
 kept as fractions of a full turn (the source multiplies each by 2π), so
 every angle of a valid reading lies in [0, 1).
 */
module ClockAngles {

  /** A clock reading: hours, minutes and seconds in the clock's time zone,
      milliseconds of the current instant. */
  datatype ClockReading = ClockReading(hours: nat, minutes: nat, seconds: nat, milliseconds: nat)

  /** The readings a clock can produce. Hours run to 24: a 24-hour formatter
      may print midnight as 24, which the hour hand treats like 0. */
  predicate ValidReading(t: ClockReading)
  {
    t.hours <= 24 && t.minutes < 60 && t.seconds < 60 && t.milliseconds < 1000
  }

  /** The millisecond hand: one turn per second. */
  function MillisecondsTurn(ms: nat): (t: real)
    ensures ms < 1000 ==> 0.0 <= t < 1.0
    ensures t * 1000.0 == ms as real
  {
    ms as real / 1000.0
  }

  /** The second hand: one turn per minute, moving on with the milliseconds
      rather than ticking once a second. */
  function SecondsTurn(s: nat, ms: nat): (t: real)
    ensures s < 60 && ms < 1000 ==> 0.0 <= t < 1.0
    ensures t * 60.0 == s as real + MillisecondsTurn(ms)
  {
    (s * 1000 + ms) as real / 60000.0
  }

  /** The minute hand: one turn per hour, in whole-minute steps. */
  function MinutesTurn(m: nat): (t: real)
    ensures m < 60 ==> 0.0 <= t < 1.0
    ensures t * 60.0 == m as real
  {
    m as real / 60.0
  }

  /** The hour hand: one turn per twelve hours, in whole-hour steps; the
      hour is taken modulo 12 first. */
  function HoursTurn(h: nat): (t: real)
    ensures 0.0 <= t < 1.0
    ensures t * 12.0 == (h % 12) as real
  {
    (h % 12) as real / 12.0
  }

  /** The angle of each circle of the five-circle chain: none for the hub,
      then the hour, minute, second and millisecond hands. */
  function Angles(t: ClockReading): (a: seq<real>)
    ensures |a| == 5 && a[0] == 0.0
    ensures ValidReading(t) ==> forall i :: 0 <= i < |a| ==> 0.0 <= a[i] < 1.0
  {
    [0.0, HoursTurn(t.hours), MinutesTurn(t.minutes),
     SecondsTurn(t.seconds, t.milliseconds), MillisecondsTurn(t.milliseconds)]
  }

  /** The hour hand is twelve-hour periodic: hours h and h + 12 (0 and 12,
      or 12 and 24) give the same angles. */
  lemma TwelveHourPeriodic(t: ClockReading)
    ensures Angles(t.(hours := t.hours + 12)) == Angles(t)
  {
    assert (t.hours + 12) % 12 == t.hours % 12;
  }

  /** The face shows the time: two valid readings give the same angles exactly
      when they agree on hours modulo 12, minutes, seconds and milliseconds. */
  lemma AnglesDetermineReading(t1: ClockReading, t2: ClockReading)
    requires ValidReading(t1) && ValidReading(t2)
    ensures Angles(t1) == Angles(t2) <==>
              && t1.hours % 12 == t2.hours % 12
              && t1.minutes == t2.minutes
              && t1.seconds == t2.seconds
              && t1.milliseconds == t2.milliseconds
  {
    if Angles(t1) == Angles(t2) {
      assert Angles(t1)[4] == Angles(t2)[4] && Angles(t1)[3] == Angles(t2)[3];
      assert Angles(t1)[2] == Angles(t2)[2] && Angles(t1)[1] == Angles(t2)[1];
      assert t1.milliseconds == t2.milliseconds;
      assert (t1.seconds * 1000 + t1.milliseconds) as real == (t2.seconds * 1000 + t2.milliseconds) as real;
    }
  }

  /** At midnight, and at noon, every hand points up. */
  lemma MidnightPointsUp(t: ClockReading)
    requires t.hours % 12 == 0 && t.minutes == 0 && t.seconds == 0 && t.milliseconds == 0
    ensures Angles(t) == [0.0, 0.0, 0.0, 0.0, 0.0]
  {
  }
}

=== FILE: paint.dfy ===
/**
 How a frame paints the chain, as the list of drawing commands it issues.

 The scheme name selects one of three passes over the circles, in chain
 order: "None" strokes outlines with the filter off, "Solid" fills each
 circle with its palette colour with the filter off, and any other name
 fills radial gradients under a blur filter that is switched off again
 at the end. A gradient runs from the current circle's colour at the next
 circle's position and radius to the previous circle's colour at the
 circle's own rim.
 */
module Paint {
  import opened CircleChain
  import opened ChainWalk

  /** The fill schemes. */
  datatype Scheme = Outline | Solid | Gradient

  /** The scheme a name selects: "None" is the outline scheme, "Solid" the
      solid one, and every other name falls through to the gradient one. */
  function SchemeOf(name: string): (s: Scheme)
    ensures s == Outline <==> name == "None"
    ensures s == Solid <==> name == "Solid"
  {
    if name == "None" then Outline
    else if name == "Solid" then Solid
    else Gradient
  }

  /** The canvas filter: off ("none") or a blur of some pixels. */
  datatype Filter = NoFilter | Blur(px: real)

  /** The drawing commands of a frame. A gradient fill covers the circle at
      `center` with `radius`; its colour runs from `stop0` at the inner
      circle (`inner`, `innerRadius`) to `stop1` at the circle's rim. */
  datatype Command =
    | SetFilter(filter: Filter)
    | FillRect(color: string, size: real)
    | StrokeCircle(center: Point, radius: real, color: string, lineWidth: real)
    | FillCircle(center: Point, radius: real, color: string)
    | FillGradient(center: Point, radius: real, inner: Point, innerRadius: real, stop0: string, stop1: string)

  /** The gradient fill of circle i: its colour at the next circle's centre
      and radius (its own centre and radius 0 for the last circle), the
      previous circle's colour (the background's for circle 0) at its rim. */
  function GradientOf(circles: seq<Circle>, pos: seq<Point>, colors: seq<string>, background: string, i: nat): (g: Command)
    requires |pos| == |circles| <= |colors| && i < |circles|
    ensures g.FillGradient? && g.center == pos[i] && g.radius == circles[i].r && g.stop0 == colors[i]
  {
    var last := i + 1 == |circles|;
    FillGradient(pos[i], circles[i].r,
                 if last then pos[i] else pos[i + 1],
                 if last then 0.0 else circles[i + 1].r,
                 colors[i],
                 if i == 0 then background else colors[i - 1])
  }

  /** The gradient fills of all circles, in chain order. */
  function Gradients(circles: seq<Circle>, pos: seq<Point>, colors: seq<string>, background: string): (g: seq<Command>)
    requires |pos| == |circles| <= |colors|
    ensures |g| == |circles|
  {
    seq(|circles|, i requires 0 <= i < |circles| => GradientOf(circles, pos, colors, background, i))
  }

  /** The commands a scheme issues for a chain at positions `pos`. */
  function Plan(scheme: Scheme, circles: seq<Circle>, pos: seq<Point>, colors: seq<string>,
                background: string, strokeColor: string, blur: real): (plan: seq<Command>)
    requires |pos| == |circles|
    requires scheme != Outline ==> |circles| <= |colors|
    ensures |plan| == |circles| + (if scheme == Gradient then 2 else 1)
    ensures plan[0] == SetFilter(if scheme == Gradient then Blur(blur) else NoFilter)
  {
    match scheme
    case Outline =>
      [SetFilter(NoFilter)]
        + seq(|circles|, i requires 0 <= i < |circles| => StrokeCircle(pos[i], circles[i].r, strokeColor, 2.0))
    case Solid =>
      [SetFilter(NoFilter)]
        + seq(|circles|, i requires 0 <= i < |circles| => FillCircle(pos[i], circles[i].r, colors[i]))
    case Gradient =>
      [SetFilter(Blur(blur))] + Gradients(circles, pos, colors, background) + [SetFilter(NoFilter)]
  }

  /** The gradient loop: threads the previous circle's colour from one
      circle to the next, starting from `background`. */
  method PaintGradients(circles: seq<Circle>, pos: seq<Point>, colors: seq<string>, background: string)
    returns (cmds: seq<Command>)
    requires |pos| == |circles| <= |colors|
    ensures cmds == Gradients(circles, pos, colors, background)
  {
    cmds := [];
    var prevColor := background;
    for i := 0 to |circles|
      invariant |cmds| == i
      invariant prevColor == if i == 0 then background else colors[i - 1]
      invariant forall j :: 0 <= j < i ==> cmds[j] == GradientOf(circles, pos, colors, background, j)
    {
      var circle, color := circles[i], colors[i];
      var center := pos[i];
      var next := if i + 1 < |pos| then pos[i + 1] else center;
      var nextR := if i + 1 < |circles| then circles[i + 1].r else 0.0;
      var gradient := FillGradient(center, circle.r, next, nextR, color, prevColor);
      prevColor := color;
      cmds := cmds + [gradient];
    }
  }

  /** The scheme branches of `update`. */
  method PaintCircles(scheme: Scheme, circles: seq<Circle>, pos: seq<Point>, colors: seq<string>,
                      background: string, strokeColor: string, blur: real)
    returns (cmds: seq<Command>)
    requires |pos| == |circles|
    requires scheme != Outline ==> |circles| <= |colors|
    ensures cmds == Plan(scheme, circles, pos, colors, background, strokeColor, blur)
  {
    if scheme == Outline {
      cmds := [SetFilter(NoFilter)];
      for i := 0 to |circles|
        invariant |cmds| == i + 1
        invariant cmds == Plan(scheme, circles[..i], pos[..i], colors, background, strokeColor, blur)
      {
        cmds := cmds + [StrokeCircle(pos[i], circles[i].r, strokeColor, 2.0)];
      }
      assert circles[..|circles|] == circles && pos[..|pos|] == pos;
    } else if scheme == Solid {
      cmds := [SetFilter(NoFilter)];
      for i := 0 to |circles|
        invariant |cmds| == i + 1
        invariant forall j :: 0 <= j < i ==> cmds[j + 1] == FillCircle(pos[j], circles[j].r, colors[j])
        invariant cmds[0] == SetFilter(NoFilter)
      {
        cmds := cmds + [FillCircle(pos[i], circles[i].r, colors[i])];
      }
    } else {
      var fills := PaintGradients(circles, pos, colors, background);
      cmds := [SetFilter(Blur(blur))] + fills + [SetFilter(NoFilter)];
    }
  }

  /** The filter in effect after `cmds` have run, starting from filter `f`. */
  function FilterAfter(cmds: seq<Command>, f: Filter): (r: Filter)
    ensures r == f || SetFilter(r) in cmds
    ensures (forall c :: c in cmds ==> !c.SetFilter?) ==> r == f
  {
    if cmds == [] then f
    else
      var last := cmds[|cmds| - 1];
      if last.SetFilter? then last.filter else FilterAfter(cmds[..|cmds| - 1], f)
  }

  /** After a filter setting followed only by drawing commands, the filter
      is the one that was set. */
  lemma {:induction false} LeadingFilter(cmds: seq<Command>, k: nat, f: Filter)
    requires 1 <= k <= |cmds|
    requires cmds[0].SetFilter?
    requires forall j :: 1 <= j < k ==> !cmds[j].SetFilter?
    ensures FilterAfter(cmds[..k], f) == cmds[0].filter
    decreases k
  {
    if k > 1 {
      assert cmds[..k][..k - 1] == cmds[..k - 1];
      LeadingFilter(cmds, k - 1, f);
    }
  }

  /** Running `a` then `b` leaves the filter `b` leaves when started from
      the filter `a` leaves. */
  lemma {:induction false} FilterAfterConcat(a: seq<Command>, b: seq<Command>, f: Filter)
    ensures FilterAfter(a + b, f) == FilterAfter(b, FilterAfter(a, f))
    decreases |b|
  {
    if b != [] {
      var b' := b[..|b| - 1];
      assert (a + b)[..|a + b| - 1] == a + b';
      assert (a + b)[|a + b| - 1] == b[|b| - 1];
      FilterAfterConcat(a, b', f);
    } else {
      assert a + b == a;
    }
  }

  /** The shape of every plan: one filter setting first, then one drawing
      command per circle, gradient fills exactly in the gradient scheme,
      and for that scheme a final filter setting. */
  lemma PlanShape(scheme: Scheme, circles: seq<Circle>, pos: seq<Point>, colors: seq<string>,
                  background: string, strokeColor: string, blur: real)
    requires |pos| == |circles|
    requires scheme != Outline ==> |circles| <= |colors|
    ensures var plan := Plan(scheme, circles, pos, colors, background, strokeColor, blur);
            && |plan| == |circles| + (if scheme == Gradient then 2 else 1)
            && plan[0] == SetFilter(if scheme == Gradient then Blur(blur) else NoFilter)
            && (scheme == Gradient ==> plan[|plan| - 1] == SetFilter(NoFilter))
            && forall k :: 1 <= k <= |circles| ==>
                 !plan[k].SetFilter? && (plan[k].FillGradient? <==> scheme == Gradient)
  {
    match scheme
    case Outline => OutlineOnlyStrokes(circles, pos, colors, background, strokeColor, blur);
    case Solid => SolidFillsInOrder(circles, pos, colors, background, strokeColor, blur);
    case Gradient => GradientThreading(circles, pos, colors, background, strokeColor, blur);
  }

  /** The filter each drawing command of a plan is drawn under, whatever
      filter was in effect before: the configured blur for gradient fills,
      no blur for everything else. Every plan leaves the filter off. */
  lemma PlanFilters(scheme: Scheme, circles: seq<Circle>, pos: seq<Point>, colors: seq<string>,
                    background: string, strokeColor: string, blur: real, f: Filter)
    requires |pos| == |circles|
    requires scheme != Outline ==> |circles| <= |colors|
    ensures var plan := Plan(scheme, circles, pos, colors, background, strokeColor, blur);
            forall k :: 0 <= k < |plan| && !plan[k].SetFilter? ==>
              FilterAfter(plan[..k], f) == if plan[k].FillGradient? then Blur(blur) else NoFilter
    ensures FilterAfter(Plan(scheme, circles, pos, colors, background, strokeColor, blur), f) == NoFilter
  {
    var plan := Plan(scheme, circles, pos, colors, background, strokeColor, blur);
    PlanShape(scheme, circles, pos, colors, background, strokeColor, blur);
    forall k | 0 <= k < |plan| && !plan[k].SetFilter?
      ensures FilterAfter(plan[..k], f) == if plan[k].FillGradient? then Blur(blur) else NoFilter
    {
      LeadingFilter(plan, k, f);
    }
    if scheme != Gradient {
      LeadingFilter(plan, |plan|, f);
      assert plan[..|plan|] == plan;
    }
  }

  /** The outline scheme turns the filter off and then only strokes, in the
      stroke colour: it never blurs and never fills. */
  lemma OutlineOnlyStrokes(circles: seq<Circle>, pos: seq<Point>, colors: seq<string>,
                           background: string, strokeColor: string, blur: real)
    requires |pos| == |circles|
    ensures var plan := Plan(Outline, circles, pos, colors, background, strokeColor, blur);
            && |plan| == |circles| + 1
            && plan[0] == SetFilter(NoFilter)
            && forall k :: 1 <= k < |plan| ==>
                 plan[k].StrokeCircle? && plan[k].color == strokeColor
                 && plan[k].center == pos[k - 1] && plan[k].radius == circles[k - 1].r
  {
  }

  /** The solid scheme turns the filter off and fills every circle, in chain
      order, with its own palette colour: no blur, no gradient. */
  lemma SolidFillsInOrder(circles: seq<Circle>, pos: seq<Point>, colors: seq<string>,
                          background: string, strokeColor: string, blur: real)
    requires |pos| == |circles| <= |colors|
    ensures var plan := Plan(Solid, circles, pos, colors, background, strokeColor, blur);
            && |plan| == |circles| + 1
            && plan[0] == SetFilter(NoFilter)
            && forall k :: 1 <= k < |plan| ==>
                 plan[k].FillCircle? && plan[k].color == colors[k - 1]
                 && plan[k].center == pos[k - 1] && plan[k].radius == circles[k - 1].r
  {
  }

  /** The gradient scheme blurs first and switches the filter off last;
      between the two it fills each circle once, in chain order, with a
      gradient whose rim colour is the previous gradient's inner colour (the
      background for the first), and whose inner circle is the next circle
      (the circle's own centre, radius 0, for the last). */
  lemma GradientThreading(circles: seq<Circle>, pos: seq<Point>, colors: seq<string>,
                          background: string, strokeColor: string, blur: real)
    requires |pos| == |circles| <= |colors|
    ensures var plan := Plan(Gradient, circles, pos, colors, background, strokeColor, blur);
            var n := |circles|;
            && |plan| == n + 2
            && plan[0] == SetFilter(Blur(blur))
            && plan[n + 1] == SetFilter(NoFilter)
            && (forall k :: 1 <= k <= n ==>
                  plan[k].FillGradient? && plan[k].center == pos[k - 1]
                  && plan[k].radius == circles[k - 1].r && plan[k].stop0 == colors[k - 1])
            && (0 < n ==> plan[1].stop1 == background)
            && (forall k :: 1 < k <= n ==> plan[k].stop1 == plan[k - 1].stop0)
            && (forall k :: 1 <= k < n ==>
                  plan[k].inner == plan[k + 1].center && plan[k].innerRadius == plan[k + 1].radius)
            && (0 < n ==> plan[n].inner == plan[n].center && plan[n].innerRadius == 0.0)
  {
    var plan := Plan(Gradient, circles, pos, colors, background, strokeColor, blur);
    var g := Gradients(circles, pos, colors, background);
    assert plan == [SetFilter(Blur(blur))] + g + [SetFilter(NoFilter)];
    forall k | 1 <= k <= |circles| ensures plan[k] == g[k - 1] == GradientOf(circles, pos, colors, background, k - 1) {
    }
  }
}

=== FILE: render_docs.dfy ===
/**
 The documentation page's clock (`render` and `update` of the docs
 build): the same five-circle chain, always painted with blurred radial
 gradients on a white canvas, with the local time as the reading.
 */
module DocsRender {
  import opened CircleChain
  import opened ChainWalk
  import opened ClockAngles
  import opened Paint
  import SrcRender

  /** The docs clock's background: the canvas is cleared to white and the
      first gradient fades into white. */
  const Background: string := "white"

  /** A docs session: canvas size, palette, blur radius and its chain. */
  datatype DocsFace = DocsFace(size: real, colors: seq<string>, blur: real, circles: seq<Circle>)

  /** The styling of the web app that a docs session stands for: a white
      background and the gradient scheme. */
  function AsConfig(face: DocsFace): (config: SrcRender.Config)
    ensures config.background == Background
    ensures SchemeOf(config.scheme) == Gradient
    ensures config.size == face.size && config.colors == face.colors && config.blur == face.blur
  {
    SrcRender.Config(face.size, face.colors, face.blur, Background, "Gradient")
  }

  /** Session set-up: the same chain as the web app's for the same size and
      random source. */
  method Render(size: real, colors: seq<string>, blur: real, random: nat -> real) returns (face: DocsFace)
    ensures face.size == size && face.colors == colors && face.blur == blur
    ensures face.circles == Chain(SrcRender.BaseRadius(size), SrcRender.CircleCount, random)
    ensures |face.circles| == SrcRender.CircleCount
    ensures face.circles[0] == Circle(0.0, 0.4 * size)
    ensures 0.0 < size && UnitSource(random) ==> WellShaped(face.circles, SrcRender.BaseRadius(size))
  {
    var r1 := (size / 2.0) * 0.8;
    var circles := CreateCircles(r1, SrcRender.CircleCount, random);
    face := DocsFace(size, colors, blur, circles);
  }

  /** One tick: clear to white, switch the blur on, fill the gradients with
      the colour threaded from white, switch the blur off. The frame is the
      web app's frame for a white background and the gradient scheme. */
  method Update(face: DocsFace, reading: ClockReading, cos: real -> real, sin: real -> real)
    returns (cmds: seq<Command>)
    requires |face.circles| <= SrcRender.CircleCount && |face.circles| <= |face.colors|
    ensures cmds == SrcRender.Frame(SrcRender.Face(AsConfig(face), face.circles), reading, cos, sin)
    ensures |cmds| == |face.circles| + 3
    ensures cmds[0] == FillRect(Background, face.size)
    ensures cmds[1] == SetFilter(Blur(face.blur))
    ensures cmds[|cmds| - 1] == SetFilter(NoFilter)
    ensures forall k :: 2 <= k < |cmds| - 1 ==> cmds[k].FillGradient?
    ensures 0 < |face.circles| ==> cmds[2].stop1 == Background
  {
    var angles := Angles(reading);
    var clear := FillRect(Background, face.size);
    var pass := [SetFilter(Blur(face.blur))];
    var pos := Walk(SrcRender.Center(face.size), face.circles, angles, cos, sin);
    var fills := PaintGradients(face.circles, pos, face.colors, Background);
    pass := pass + fills + [SetFilter(NoFilter)];
    cmds := [clear] + pass;
    forall k | 2 <= k < |cmds| - 1
      ensures cmds[k] == fills[k - 2] == GradientOf(face.circles, pos, face.colors, Background, k - 2)
    {
      assert cmds[k] == pass[k - 1];
    }
    SrcRender.GradientFrame(SrcRender.Face(AsConfig(face), face.circles), reading, cos, sin, pos, fills);
  }

  /** The docs clock takes the hour modulo 12 before the angle is formed; the
      angles are the same as for the hour itself. */
  lemma HourReducedFirst(t: ClockReading)
    ensures Angles(t.(hours := t.hours % 12)) == Angles(t)
  {
    assert (t.hours % 12) % 12 == t.hours % 12;
  }
}

=== FILE: render_src.dfy ===
/**
 The clock renderer of the web app (`render` and its per-tick `update`).

 A render session builds a five-circle chain once from the canvas size and
 the random source. Each tick clears the canvas to the background, places
 the chain by the clock reading and paints it in the configured scheme.
 */
module SrcRender {
  import opened CircleChain
  import opened ChainWalk
  import opened ClockAngles
  import opened Paint
  import Theme

  /** The styling of a session: canvas size, palette, blur radius,
      background colour and scheme name. */
  datatype Config = Config(size: real, colors: seq<string>, blur: real, background: string, scheme: string)

  /** A render session: its styling and its chain. */
  datatype Face = Face(config: Config, circles: seq<Circle>)

  /** The number of circles of every clock face. */
  const CircleCount: nat := 5

  /** The hub's radius: 80% of half the canvas, so the hub fits the canvas
      with a margin. */
  function BaseRadius(size: real): (r: real)
    ensures r == 0.4 * size
    ensures 0.0 < size ==> 0.0 < r < size / 2.0
  {
    (size / 2.0) * 0.8
  }

  /** The centre of a square canvas of side `size`. */
  function Center(size: real): (c: Point)
    ensures c.x == c.y && c.x + c.y == size
  {
    Point(size / 2.0, size / 2.0)
  }

  /** Session set-up: the chain is grown once from the base radius. */
  method Render(config: Config, random: nat -> real) returns (face: Face)
    ensures face.config == config
    ensures face.circles == Chain(BaseRadius(config.size), CircleCount, random)
    ensures |face.circles| == CircleCount
    ensures face.circles[0] == Circle(0.0, 0.4 * config.size)
    ensures 0.0 < config.size && UnitSource(random) ==> WellShaped(face.circles, BaseRadius(config.size))
  {
    var r1 := BaseRadius(config.size);
    var circles := CreateCircles(r1, CircleCount, random);
    face := Face(config, circles);
  }

  /** On the default 400-pixel canvas the hub has radius 160, and the first
      circle after it sits 16 to 32 pixels off the hub's centre with a radius
      between 80% and 90% of what the hub leaves it. */
  lemma DefaultCanvasChain(size: real, random: nat -> real)
    requires size == 400.0 && UnitSource(random)
    ensures var cs := Chain(BaseRadius(size), CircleCount, random);
            && cs[0] == Circle(0.0, 160.0)
            && 16.0 <= cs[1].d <= 32.0
            && 0.8 * (160.0 - cs[1].d) <= cs[1].r <= 0.9 * (160.0 - cs[1].d)
  {
    ChainWellShaped(BaseRadius(size), CircleCount, random);
    var cs := Chain(BaseRadius(size), CircleCount, random);
    assert Follows(cs[0], cs[1]);
  }

  /** The commands of one frame: clear to the background, then the scheme's
      pass over the chain at the positions the reading gives. */
  function Frame(face: Face, reading: ClockReading, cos: real -> real, sin: real -> real): (frame: seq<Command>)
    requires |face.circles| <= CircleCount
    requires SchemeOf(face.config.scheme) != Outline ==> |face.circles| <= |face.config.colors|
    ensures |frame| == |face.circles| + (if SchemeOf(face.config.scheme) == Gradient then 3 else 2)
    ensures frame[0] == FillRect(face.config.background, face.config.size)
    ensures frame[1] == SetFilter(if SchemeOf(face.config.scheme) == Gradient then Blur(face.config.blur) else NoFilter)
  {
    var config := face.config;
    var pos := Positions(Center(config.size), face.circles, Angles(reading), cos, sin);
    [FillRect(config.background, config.size)]
      + Plan(SchemeOf(config.scheme), face.circles, pos, config.colors,
             config.background, Theme.StrokeColor(config.background), config.blur)
  }

  /** One tick: angles from the reading, the clearing fill, the chain walk
      and the scheme's pass. */
  method Update(face: Face, reading: ClockReading, cos: real -> real, sin: real -> real)
    returns (cmds: seq<Command>)
    requires |face.circles| <= CircleCount
    requires SchemeOf(face.config.scheme) != Outline ==> |face.circles| <= |face.config.colors|
    ensures cmds == Frame(face, reading, cos, sin)
  {
    var config := face.config;
    var angles := Angles(reading);
    cmds := [FillRect(config.background, config.size)];
    var pos := Walk(Center(config.size), face.circles, angles, cos, sin);
    var strokeColor := Theme.StrokeColor(config.background);
    var pass := PaintCircles(SchemeOf(config.scheme), face.circles, pos, config.colors,
                             config.background, strokeColor, config.blur);
    cmds := cmds + pass;
  }

  /** Every frame leaves the filter off, so the next frame's clearing fill
      is never blurred; within a frame that starts with the filter off, the
      gradients are drawn under the configured blur and everything else
      without. */
  lemma FrameFilters(face: Face, reading: ClockReading, cos: real -> real, sin: real -> real, f: Filter)
    requires |face.circles| <= CircleCount
    requires SchemeOf(face.config.scheme) != Outline ==> |face.circles| <= |face.config.colors|
    ensures FilterAfter(Frame(face, reading, cos, sin), f) == NoFilter
    ensures var frame := Frame(face, reading, cos, sin);
            f == NoFilter ==>
              forall k :: 0 <= k < |frame| && !frame[k].SetFilter? ==>
                FilterAfter(frame[..k], f) == if frame[k].FillGradient? then Blur(face.config.blur) else NoFilter
  {
    var config := face.config;
    var scheme := SchemeOf(config.scheme);
    var pos := Positions(Center(config.size), face.circles, Angles(reading), cos, sin);
    var stroke := Theme.StrokeColor(config.background);
    var plan := Plan(scheme, face.circles, pos, config.colors, config.background, stroke, config.blur);
    var frame := Frame(face, reading, cos, sin);
    var clear := FillRect(config.background, config.size);
    assert frame == [clear] + plan;
    PlanFilters(scheme, face.circles, pos, config.colors, config.background, stroke, config.blur, f);
    ClearFirst(clear, plan, config.blur, f);
  }

  /** In the gradient scheme a frame clears, switches the blur on, fills
      the gradients threaded from the background at the walked positions and
      switches the blur off. */
  lemma GradientFrame(face: Face, reading: ClockReading, cos: real -> real, sin: real -> real,
                      pos: seq<Point>, fills: seq<Command>)
    requires |face.circles| <= CircleCount && |face.circles| <= |face.config.colors|
    requires SchemeOf(face.config.scheme) == Gradient
    requires pos == Positions(Center(face.config.size), face.circles, Angles(reading), cos, sin)
    requires fills == Gradients(face.circles, pos, face.config.colors, face.config.background)
    ensures Frame(face, reading, cos, sin)
            == [FillRect(face.config.background, face.config.size)]
               + ([SetFilter(Blur(face.config.blur))] + fills + [SetFilter(NoFilter)])
  {
    var config := face.config;
    var stroke := Theme.StrokeColor(config.background);
    assert Plan(Gradient, face.circles, pos, config.colors, config.background, stroke, config.blur)
        == [SetFilter(Blur(config.blur))] + fills + [SetFilter(NoFilter)];
  }

  /** In the outline scheme a frame clears, switches the filter off and
      strokes every circle at its walked position, in chain order, in the
      contrast colour the background picks: white on a dark background,
      black otherwise. */
  lemma OutlineFrame(face: Face, reading: ClockReading, cos: real -> real, sin: real -> real, pos: seq<Point>)
    requires |face.circles| <= CircleCount
    requires SchemeOf(face.config.scheme) == Outline
    requires pos == Positions(Center(face.config.size), face.circles, Angles(reading), cos, sin)
    ensures var frame := Frame(face, reading, cos, sin);
            && |frame| == |face.circles| + 2
            && frame[0] == FillRect(face.config.background, face.config.size)
            && frame[1] == SetFilter(NoFilter)
            && forall k :: 2 <= k < |frame| ==>
                 frame[k] == StrokeCircle(pos[k - 2], face.circles[k - 2].r,
                                          Theme.StrokeColor(face.config.background), 2.0)
  {
    var config := face.config;
    var stroke := Theme.StrokeColor(config.background);
    var plan := Plan(Outline, face.circles, pos, config.colors, config.background, stroke, config.blur);
    OutlineOnlyStrokes(face.circles, pos, config.colors, config.background, stroke, config.blur);
    var frame := Frame(face, reading, cos, sin);
    assert frame == [FillRect(config.background, config.size)] + plan;
    forall k | 2 <= k < |frame|
      ensures frame[k] == StrokeCircle(pos[k - 2], face.circles[k - 2].r, stroke, 2.0)
    {
      assert frame[k] == plan[k - 1];
    }
  }

  /** A leading drawing command that is not a gradient changes nothing about
      the filters the commands after it are drawn under. */
  lemma ClearFirst(clear: Command, plan: seq<Command>, blur: real, f: Filter)
    requires !clear.SetFilter? && !clear.FillGradient?
    requires forall k :: 0 <= k < |plan| && !plan[k].SetFilter? ==>
               FilterAfter(plan[..k], f) == if plan[k].FillGradient? then Blur(blur) else NoFilter
    requires FilterAfter(plan, f) == NoFilter
    ensures FilterAfter([clear] + plan, f) == NoFilter
    ensures var frame := [clear] + plan;
            f == NoFilter ==>
              forall k :: 0 <= k < |frame| && !frame[k].SetFilter? ==>
                FilterAfter(frame[..k], f) == if frame[k].FillGradient? then Blur(blur) else NoFilter
  {
    var frame := [clear] + plan;
    FilterAfterConcat([clear], plan, f);
    assert FilterAfter([clear], f) == f by { assert [clear][..0] == []; }
    forall k | 0 <= k < |frame| && !frame[k].SetFilter? && f == NoFilter
      ensures FilterAfter(frame[..k], f) == if frame[k].FillGradient? then Blur(blur) else NoFilter
    {
      if k > 0 {
        assert frame[..k] == [clear] + plan[..k - 1];
        assert frame[k] == plan[k - 1];
        FilterAfterConcat([clear], plan[..k - 1], f);
      } else {
        assert frame[..k] == [];
      }
    }
  }
}

=== FILE: theme.dfy ===
/**
 The dark-background test that picks the stroke colour of the outline
 scheme (`isDarkTheme`): the background is lower-cased and trimmed, then
 compared with the three spellings of black.
 */
module Theme {

  /** The characters that JavaScript's `String.prototype.trim` removes: white
      space and line terminators. */
  predicate IsSpace(c: char)
  {
    || c == ' ' || c == '\t' || c == '\n' || c == '\r'
    || c == '\U{000B}' || c == '\U{000C}' || c == '\U{00A0}' || c == '\U{1680}'
    || ('\U{2000}' <= c <= '\U{200A}')
    || c == '\U{2028}' || c == '\U{2029}' || c == '\U{202F}' || c == '\U{205F}'
    || c == '\U{3000}' || c == '\U{FEFF}'
  }

  /** Lower-case mapping of one character, for the characters whose lower
      case is one of the letters of "black": A–Z, and KELVIN SIGN, whose
      lower case is 'k'. */
  function LowerChar(c: char): (l: char)
    ensures !('A' <= l <= 'Z')
    ensures 'A' <= c <= 'Z' ==> l as int == c as int + 32
    ensures c == '\U{212A}' ==> l == 'k'
    ensures !('A' <= c <= 'Z') && c != '\U{212A}' ==> l == c
  {
    if 'A' <= c <= 'Z' then (c as int + 32) as char
    else if c == '\U{212A}' then 'k'
    else c
  }

  /** `toLowerCase`, character by character: no upper-case ASCII letter is
      left, each one becomes its lower-case letter, KELVIN SIGN becomes 'k',
      and every other character is kept. */
  function Lower(s: string): (r: string)
    ensures |r| == |s|
    ensures forall i :: 0 <= i < |r| ==> !('A' <= r[i] <= 'Z')
    ensures forall i :: 0 <= i < |s| && 'A' <= s[i] <= 'Z' ==> r[i] as int == s[i] as int + 32
    ensures forall i :: 0 <= i < |s| && s[i] == '\U{212A}' ==> r[i] == 'k'
    ensures forall i :: 0 <= i < |s| && !('A' <= s[i] <= 'Z') && s[i] != '\U{212A}' ==> r[i] == s[i]
  {
    seq(|s|, i requires 0 <= i < |s| => LowerChar(s[i]))
  }

  /** `a` and `b` spell the same text up to the case of ASCII letters: at
      each position the characters are equal, or one is a lower-case ASCII
      letter and the other its upper case. */
  predicate SameUpToAsciiCase(a: string, b: string)
  {
    && |a| == |b|
    && forall i :: 0 <= i < |a| ==>
         || a[i] == b[i]
         || ('a' <= a[i] <= 'z' && b[i] as int == a[i] as int - 32)
         || ('a' <= b[i] <= 'z' && a[i] as int == b[i] as int - 32)
  }

  /** `s` without its leading white space. */
  function TrimStart(s: string): (r: string)
    ensures |r| <= |s| && r == s[|s| - |r|..]
    ensures forall i :: 0 <= i < |s| - |r| ==> IsSpace(s[i])
    ensures r == [] || !IsSpace(r[0])
  {
    if |s| > 0 && IsSpace(s[0]) then TrimStart(s[1..]) else s
  }

  /** `s` without its trailing white space. */
  function TrimEnd(s: string): (r: string)
    ensures |r| <= |s| && r == s[..|r|]
    ensures forall i :: |r| <= i < |s| ==> IsSpace(s[i])
    ensures r == [] || !IsSpace(r[|r| - 1])
  {
    if |s| > 0 && IsSpace(s[|s| - 1]) then TrimEnd(s[..|s| - 1]) else s
  }

  /** `trim`: white space removed from both ends. Nothing but white space
      trims to the empty string, and any other string keeps a first and a
      last character that are not white space. */
  function Trim(s: string): (r: string)
    ensures |r| <= |s|
    ensures r == [] <==> forall i :: 0 <= i < |s| ==> IsSpace(s[i])
    ensures r != [] ==> !IsSpace(r[0]) && !IsSpace(r[|r| - 1])
  {
    TrimEnd(TrimStart(s))
  }

  /** Whether the background is one of the spellings of black, ignoring case
      and surrounding white space. */
  predicate IsDarkTheme(background: string)
  {
    var c := Trim(Lower(background));
    c == "black" || c == "#000" || c == "#000000"
  }

  /** A dark background has at least three characters. */
  lemma DarkNeedsText(background: string)
    ensures IsDarkTheme(background) ==> 3 <= |background|
  {
    var lower := Lower(background);
    assert |Trim(lower)| <= |lower| == |background|;
  }

  /** A background of white space only is never dark. */
  lemma BlankIsLight(background: string)
    requires forall i :: 0 <= i < |background| ==> IsSpace(background[i])
    ensures !IsDarkTheme(background)
  {
    LowerKeepsSpace(background);
    assert Trim(Lower(background)) == [];
  }

  /** The colour outlines are stroked in: white on a dark background, black
      otherwise. */
  function StrokeColor(background: string): (color: string)
    ensures IsDarkTheme(background) <==> color == "#fff"
    ensures !IsDarkTheme(background) <==> color == "#000"
  {
    if IsDarkTheme(background) then "#fff" else "#000"
  }

  /** White space on either side of the background does not change the
      verdict. */
  lemma PaddingIgnored(pre: string, b: string, post: string)
    requires forall i :: 0 <= i < |pre| ==> IsSpace(pre[i])
    requires forall i :: 0 <= i < |post| ==> IsSpace(post[i])
    ensures IsDarkTheme(pre + b + post) == IsDarkTheme(b)
  {
    LowerKeepsSpace(pre);
    LowerKeepsSpace(post);
    assert Lower(pre + b + post) == Lower(pre) + Lower(b) + Lower(post);
    TrimPadding(Lower(pre), Lower(b), Lower(post));
  }

  /** Letter case does not change the verdict: two backgrounds that differ
      only in the case of ASCII letters are both dark or both light. */
  lemma CaseIgnored(a: string, b: string)
    requires SameUpToAsciiCase(a, b)
    ensures IsDarkTheme(a) == IsDarkTheme(b)
  {
    forall i | 0 <= i < |a|
      ensures Lower(a)[i] == Lower(b)[i]
    {
    }
    assert Lower(a) == Lower(b);
  }

  /** Capitalised and shouted black are dark. */
  lemma ShoutedBlackIsDark(b: string)
    requires b == "BLACK" || b == "Black"
    ensures IsDarkTheme(b)
  {
    var black := "black";
    assert SameUpToAsciiCase(black, b);
    CaseIgnored(black, b);
    BlackIsDark(black);
  }

  /** The three spellings of black are dark. */
  lemma BlackIsDark(b: string)
    requires b == "black" || b == "#000" || b == "#000000"
    ensures IsDarkTheme(b)
  {
    assert Lower(b) == b;
    Unpadded(b);
  }

  /** The default background, "white", is not dark. */
  lemma DefaultIsLight(b: string)
    requires b == "white"
    ensures !IsDarkTheme(b)
  {
    Plain(b);
  }

  /** A near-black grey, "#111", is not dark: only the three spellings of
      black are. */
  lemma GreyIsLight(b: string)
    requires b == "#111"
    ensures !IsDarkTheme(b)
  {
    Plain(b);
  }

  /** A string without upper-case letters and without white space at its
      ends is its own trimmed lower-case form. */
  lemma Plain(s: string)
    requires |s| > 0 && !IsSpace(s[0]) && !IsSpace(s[|s| - 1])
    requires forall i :: 0 <= i < |s| ==> !('A' <= s[i] <= 'Z') && s[i] != '\U{212A}'
    ensures Trim(Lower(s)) == s
  {
    assert Lower(s) == s;
    Unpadded(s);
  }

  /** A string that neither starts nor ends with white space trims to
      itself. */
  lemma Unpadded(s: string)
    requires |s| > 0 && !IsSpace(s[0]) && !IsSpace(s[|s| - 1])
    ensures Trim(s) == s
  {
  }

  lemma LowerKeepsSpace(s: string)
    requires forall i :: 0 <= i < |s| ==> IsSpace(s[i])
    ensures Lower(s) == s
  {
  }

  lemma {:induction false} TrimStartPadded(pre: string, x: string)
    requires forall i :: 0 <= i < |pre| ==> IsSpace(pre[i])
    ensures TrimStart(pre + x) == TrimStart(x)
    decreases |pre|
  {
    if |pre| > 0 {
      assert (pre + x)[0] == pre[0];
      assert (pre + x)[1..] == pre[1..] + x;
      TrimStartPadded(pre[1..], x);
    } else {
      assert pre + x == x;
    }
  }

  lemma {:induction false} TrimEndPadded(x: string, post: string)
    requires forall i :: 0 <= i < |post| ==> IsSpace(post[i])
    ensures TrimEnd(x + post) == TrimEnd(x)
    decreases |post|
  {
    if |post| > 0 {
      assert (x + post)[|x + post| - 1] == post[|post| - 1];
      assert (x + post)[..|x + post| - 1] == x + post[..|post| - 1];
      TrimEndPadded(x, post[..|post| - 1]);
    } else {
      assert x + post == x;
    }
  }

  /** Trimming removes leading white space and then trailing white space;
      when the middle part trims to nothing, so does the padded whole. */
  lemma {:induction false} TrimStartConcat(x: string, post: string)
    requires forall i :: 0 <= i < |post| ==> IsSpace(post[i])
    ensures TrimStart(x + post) == if TrimStart(x) == [] then TrimStart(post) else TrimStart(x) + post
    decreases |x|
  {
    if |x| > 0 {
      assert (x + post)[0] == x[0];
      if IsSpace(x[0]) {
        assert (x + post)[1..] == x[1..] + post;
        TrimStartConcat(x[1..], post);
      }
    } else {
      assert x + post == post;
    }
  }

  lemma TrimPadding(pre: string, x: string, post: string)
    requires forall i :: 0 <= i < |pre| ==> IsSpace(pre[i])
    requires forall i :: 0 <= i < |post| ==> IsSpace(post[i])
    ensures Trim(pre + x + post) == Trim(x)
  {
    var front := TrimStart(x);
    PaddedFront(pre, x, post);
    if front != [] {
      TrimEndPadded(front, post);
    }
  }

  /** Leading white space of a padded string is the padding plus the middle
      part's own; the trailing padding stays when the middle part has text. */
  lemma PaddedFront(pre: string, x: string, post: string)
    requires forall i :: 0 <= i < |pre| ==> IsSpace(pre[i])
    requires forall i :: 0 <= i < |post| ==> IsSpace(post[i])
    ensures TrimStart(pre + x + post) == if TrimStart(x) == [] then [] else TrimStart(x) + post
  {
    assert pre + x + post == pre + (x + post);
    TrimStartPadded(pre, x + post);
    TrimStartConcat(x, post);
    if TrimStart(x) == [] {
      AllSpaceTrimsAway(post);
    }
  }

  lemma AllSpaceTrimsAway(s: string)
    requires forall i :: 0 <= i < |s| ==> IsSpace(s[i])
    ensures TrimStart(s) == []
  {
  }
}

=== FILE: walk.dfy ===
/**
 The chain walk: absolute canvas positions of the circles of a chain.

 Starting from the canvas centre, every circle's centre is its
 predecessor's centre moved by the circle's offset `d` in the direction of
 the start angle plus the circle's own angle. Angles are turn fractions and
 the trigonometric functions are parameters (`cos(t)` stands for the cosine
 of `2πt`), so every fact here holds whatever they are.
 */
module ChainWalk {
  import opened CircleChain

  /** A point of the canvas. */
  datatype Point = Point(x: real, y: real)

  /** The start angle, -π/2 as a turn fraction: angle 0 points up. */
  const StartTurn: real := -0.25

  /** `p` moved by `(dx, dy)`. */
  function Translate(p: Point, dx: real, dy: real): (q: Point)
  {
    Point(p.x + dx, p.y + dy)
  }

  /** The sum of the moves of the first `n` circles: circle j moves by
      `d_j` along the direction `StartTurn + angles[j]`. */
  function Displacement(circles: seq<Circle>, angles: seq<real>, cos: real -> real, sin: real -> real, n: nat): (m: Point)
    requires n <= |circles| <= |angles|
  {
    if n == 0 then Point(0.0, 0.0)
    else
      var p := Displacement(circles, angles, cos, sin, n - 1);
      var c, a := circles[n - 1], angles[n - 1];
      Point(p.x + c.d * cos(StartTurn + a), p.y + c.d * sin(StartTurn + a))
  }

  /** The position of every circle: the centre displaced by the moves of
      that circle and all circles before it. */
  function Positions(center: Point, circles: seq<Circle>, angles: seq<real>, cos: real -> real, sin: real -> real): (pos: seq<Point>)
    requires |circles| <= |angles|
    ensures |pos| == |circles|
  {
    seq(|circles|, i requires 0 <= i < |circles| =>
      var m := Displacement(circles, angles, cos, sin, i + 1);
      Point(center.x + m.x, center.y + m.y))
  }

  /** The walk of `update`: accumulates `cx`, `cy` from the canvas centre and
      records the position after each circle's move. */
  method Walk(center: Point, circles: seq<Circle>, angles: seq<real>, cos: real -> real, sin: real -> real)
    returns (pos: seq<Point>)
    requires |circles| <= |angles|
    ensures pos == Positions(center, circles, angles, cos, sin)
  {
    var cx, cy := center.x, center.y;
    pos := [];
    for i := 0 to |circles|
      invariant |pos| == i
      invariant cx == center.x + Displacement(circles, angles, cos, sin, i).x
      invariant cy == center.y + Displacement(circles, angles, cos, sin, i).y
      invariant forall j :: 0 <= j < i ==> pos[j] == Positions(center, circles, angles, cos, sin)[j]
    {
      var circle, angle := circles[i], angles[i];
      assert Displacement(circles, angles, cos, sin, i + 1)
          == Point(Displacement(circles, angles, cos, sin, i).x + circle.d * cos(StartTurn + angle),
                   Displacement(circles, angles, cos, sin, i).y + circle.d * sin(StartTurn + angle));
      cx := cx + circle.d * cos(StartTurn + angle);
      cy := cy + circle.d * sin(StartTurn + angle);
      assert Point(cx, cy) == Positions(center, circles, angles, cos, sin)[i];
      pos := pos + [Point(cx, cy)];
    }
  }

  /** The hub stays at the canvas centre because its offset is 0. */
  lemma HubAtCenter(center: Point, circles: seq<Circle>, angles: seq<real>, cos: real -> real, sin: real -> real)
    requires 0 < |circles| <= |angles|
    requires circles[0].d == 0.0
    ensures Positions(center, circles, angles, cos, sin)[0] == center
  {
    assert Displacement(circles, angles, cos, sin, 1) == Point(0.0, 0.0);
  }

  /** Each position is relative to the previous one: circle i sits `d_i`
      away from circle i - 1 in its own direction. */
  lemma RelativeToPrevious(center: Point, circles: seq<Circle>, angles: seq<real>, cos: real -> real, sin: real -> real, i: nat)
    requires 0 < i < |circles| <= |angles|
    ensures var pos := Positions(center, circles, angles, cos, sin);
            var a := StartTurn + angles[i];
            pos[i] == Point(pos[i - 1].x + circles[i].d * cos(a), pos[i - 1].y + circles[i].d * sin(a))
  {
  }

  /** Moving the canvas centre by (dx, dy) moves every position by (dx, dy). */
  lemma TranslationInvariant(center: Point, dx: real, dy: real, circles: seq<Circle>, angles: seq<real>, cos: real -> real, sin: real -> real)
    requires |circles| <= |angles|
    ensures var moved := Positions(Translate(center, dx, dy), circles, angles, cos, sin);
            var pos := Positions(center, circles, angles, cos, sin);
            forall i :: 0 <= i < |circles| ==> moved[i] == Translate(pos[i], dx, dy)
  {
  }

  /** When every angle is 0 (midnight), all circles lie on the ray from the
      centre in the start direction, each at the sum of the offsets so far. */
  lemma {:induction false} AllUpOneRay(circles: seq<Circle>, angles: seq<real>, cos: real -> real, sin: real -> real, n: nat)
    requires n <= |circles| <= |angles|
    requires forall j :: 0 <= j < |angles| ==> angles[j] == 0.0
    ensures var m := Displacement(circles, angles, cos, sin, n);
            m == Point(Reach(circles, n) * cos(StartTurn), Reach(circles, n) * sin(StartTurn))
  {
    if n > 0 {
      AllUpOneRay(circles, angles, cos, sin, n - 1);
      var s := Reach(circles, n - 1);
      var d := circles[n - 1].d;
      assert s * cos(StartTurn) + d * cos(StartTurn) == (s + d) * cos(StartTurn);
      assert s * sin(StartTurn) + d * sin(StartTurn) == (s + d) * sin(StartTurn);
    }
  }

  /** The sum of the offsets of the first `n` circles. */
  function Reach(circles: seq<Circle>, n: nat): (s: real)
    requires n <= |circles|
  {
    if n == 0 then 0.0 else Reach(circles, n - 1) + circles[n - 1].d
  }

  /** With a true cosine and sine (cos² + sin² = 1), circle i - 1 contains
      circle i of a well-shaped chain: the distance between their centres
      plus the smaller radius stays below the larger radius, stated on squares
      as `dist² < (r_{i-1} - r_i)²`. */
  lemma Nested(center: Point, circles: seq<Circle>, r: real, angles: seq<real>, cos: real -> real, sin: real -> real, i: nat)
    requires 0 < i < |circles| <= |angles|
    requires 0.0 < r && WellShaped(circles, r)
    requires forall t :: cos(t) * cos(t) + sin(t) * sin(t) == 1.0
    ensures var pos := Positions(center, circles, angles, cos, sin);
            var dx, dy := pos[i].x - pos[i - 1].x, pos[i].y - pos[i - 1].y;
            dx * dx + dy * dy < (circles[i - 1].r - circles[i].r) * (circles[i - 1].r - circles[i].r)
  {
    GapAhead(circles, r, i);
    var d, gap := circles[i].d, circles[i - 1].r - circles[i].r;
    var a := StartTurn + angles[i];
    var co, si := cos(a), sin(a);
    assert co * co + si * si == 1.0;
    var pos := Positions(center, circles, angles, cos, sin);
    RelativeToPrevious(center, circles, angles, cos, sin, i);
    var from, to := pos[i - 1], pos[i];
    assert to == Point(from.x + d * co, from.y + d * si);
    UnitMove(from, to, d, co, si, gap);
  }

  /** In a well-shaped chain, circle i's offset is non-negative and smaller
      than the gap between its radius and its predecessor's. */
  lemma GapAhead(circles: seq<Circle>, r: real, i: nat)
    requires 0 < i < |circles|
    requires 0.0 < r && WellShaped(circles, r)
    ensures 0.0 <= circles[i].d < circles[i - 1].r - circles[i].r
  {
    var p, c := circles[i - 1], circles[i];
    assert 0.0 < p.r by {
      if i == 1 {
        assert p == Circle(0.0, r);
      } else {
        assert Follows(circles[i - 2], p);
      }
    }
    assert Follows(p, c);
  }

  /** A move by `d < gap` along a unit direction `(c, s)` ends less than
      `gap` away, stated on squares. */
  lemma UnitMove(p: Point, q: Point, d: real, c: real, s: real, gap: real)
    requires q == Point(p.x + d * c, p.y + d * s)
    requires c * c + s * s == 1.0
    requires 0.0 <= d < gap
    ensures (q.x - p.x) * (q.x - p.x) + (q.y - p.y) * (q.y - p.y) < gap * gap
  {
    var dx, dy := q.x - p.x, q.y - p.y;
    assert dx * dx + dy * dy == d * d by {
      assert dx == d * c && dy == d * s;
      assert (d * c) * (d * c) + (d * s) * (d * s) == d * d * (c * c + s * s);
    }
    SquareMonotone(d, gap);
  }

  lemma SquareMonotone(a: real, b: real)
    requires 0.0 <= a < b
    ensures a * a < b * b
  {
    assert b * b - a * a == (b - a) * (b + a);
    assert 0.0 < (b - a) * (b + a) by { PositiveProduct(b - a, b + a); }
  }

  lemma PositiveProduct(a: real, b: real)
    requires 0.0 < a && 0.0 < b
    ensures 0.0 < a * b
  {
  }
}
